=== FILE: README.md ===
# SimpleTaskManager in Dafny

A Dafny model of SimpleTaskManager, an interactive command-line to-do list written in C#
as a single file, `Program.cs`. The program keeps a `Dictionary<int, Task>` of tasks and a
`nextTaskId` counter. It reads one line at a time, splits the line into tokens with a
regular expression, and switches on the first token, ignoring case. The commands are add,
list, complete, delete, edit, help and exit. After most changes it writes the dictionary
back to `tasks.json`.

The model is functional. The store is an immutable `map<int, Task>` paired with the
counter (`Tasks.Session`). Each command handler is a pure transition from a session and a
token list to a new session, an outcome and a "save requested" flag. The tokenizer is a
recursive scanner over `seq<char>`. One pass of the source's main loop is
`Dispatcher.StepLine`, including its crash on a line of white space, and `Dispatcher.Run`
feeds it a sequence of lines. `Dispatcher.StepLineCorrected` is the same pass with the
crash repaired (see Findings).

Files, one module each:

- `wrappers.dfy` (`Wrappers`): `Option`.
- `numbers.dfy` (`Numbers`): the C# `int` range and its wrap-around, `int.ToString()` and `int.TryParse`.
- `tokenizer.dfy` (`Tokenizer`): `SplitInput`, plus `Render`, its inverse, used to state the round trip.
- `tasks.dfy` (`Tasks`):
  - the `Task` record and the store;
  - `GetNextTaskId`;
  - the add, complete, delete and edit handlers;
  - the line format of the list command.
- `dispatcher.dfy` (`Dispatcher`): the command switch of `Main` and the loop.
- `overflow.dfy` (`Overflow`): `GetNextTaskId` with the 32-bit wrap of the source (see Findings).

The central invariant is `Tasks.Inv`: the counter is at least 1 and above every id in the
store. `GetNextTaskId` establishes it, and every handler keeps it. It is also why
`taskList.Add` never meets an id that is already present. Ids are mathematical integers in
the main model. The source's unchecked 32-bit arithmetic is modelled separately in `Overflow`.

## Model

| member | source | states |
|---|---|---|
| Tasks.GetNextTaskId | Program.cs:271-282 | The result is at least 1 and above every id in the store, and it is either 1 or one more than an id in the store. So it equals max(0, largest id) + 1, and it establishes `Inv` for the loaded store. |
| Tasks.HandleAdd | Program.cs:96-116 | With 2 or 3 tokens and the counter's id not yet taken, which `Inv` guarantees, the new task goes in under the counter's id and the counter moves up by one. The name is `parts[1]`. The description is `""` for 2 tokens and `parts[2]` for 3. The task starts not completed. No existing entry changes. Any other token count leaves the state alone, reports a usage error and still saves. An id that is already present gives `DuplicateKey` (the `Dictionary.Add` exception) with no save, and this cannot happen under `Inv`. |
| Tasks.HandleComplete | Program.cs:135-155 | A usage error happens exactly when the token count is not 2 or the id does not parse. Not-found happens exactly when the parsed id is absent. In both cases the state is unchanged. Otherwise only that task's completion flag flips: its name and description and every other task stay the same. The store is always saved. |
| Tasks.HandleDelete | Program.cs:158-178 | Usage errors and absent ids are characterized as for complete and change nothing. A not-found report names the parsed id. A present id is removed: the remaining ids are the old ids minus that one, with their tasks unchanged. The counter is untouched, `Inv` is kept, and the store is always saved. |
| Tasks.HandleEdit | Program.cs:181-208 | A usage error happens exactly when there are fewer than 3 tokens or the id does not parse, and only then is there no save. For a present id the name becomes `parts[2]`. The description becomes `parts[3]` when there are 4 or more tokens and is kept otherwise. The completion flag and all other tasks are unchanged, and tokens past the fourth are ignored. An absent id changes nothing, and its not-found report names the parsed id. |
| Tasks.CompleteTwice | Program.cs:137-143 | Running the same complete command twice gives back the original session, for every input. |
| Tasks.HandlersKeepInv | Program.cs:96-208 | Every handler keeps `Inv`, and under `Inv` add never reports a duplicate key. |
| Tasks.DeletedIdNotReused | Program.cs:96-178 | After a successful delete, the next add succeeds and hands out an id different from the deleted one. |
| Tasks.CompleteOnEmptyStore | Program.cs:137-147 | `complete 99` on an empty store reports id 99 as not found and changes nothing. |
| Tasks.ListLines | Program.cs:119-132 | An empty store prints only the "No tasks in the list." message. Otherwise there is one line per task, in the dictionary's enumeration order, so the number of lines equals the number of tasks. |
| Tasks.FormatLine | Program.cs:129 | The list line is as long as the printed id plus the name plus the description plus the eight fixed characters `. [`, the marker, `] ` and `: `. It begins with the printed id and ends with the description. |
| Tasks.FormatLineShape | Program.cs:129 | A list line starts with the task's id, and `int.TryParse` reads that id back. It continues with `. [`, then `x` exactly when the task is completed, then `] name: description`. |
| Numbers.TryParseInt32 | Program.cs:137 | `int.TryParse` accepts only values inside the 32-bit range, and it rejects every string that contains no decimal digit. |
| Numbers.ParseNumeral | Program.cs:137 | The "if" half of the characterization of `int.TryParse`. Take optional white space, an optional `+` or `-`, a non-empty run of decimal digits, then optional white space. That string parses to the signed digit value when the value is inside the 32-bit range, and fails otherwise. |
| Numbers.ParseIsNumeral | Program.cs:137 | The "only if" half. Every string `int.TryParse` accepts is such a numeral, and its value is the numeral's signed value. So a string with a digit that is not a numeral, such as `1x`, `+-1`, `1-` or `1 2`, is rejected, and `complete 1x` is a usage error. |
| Numbers.RejectsTrailingLetter | Program.cs:137 | `int.TryParse` rejects `1x`. |
| Numbers.ParseUnsigned | Program.cs:137 | A bare run of digits parses to its value when that value is at most 2147483647, and fails otherwise. |
| Numbers.RejectsTooLarge | Program.cs:137 | A run of digits whose value exceeds 2147483647 is rejected, so an over-long id is reported as invalid rather than wrapped. |
| Numbers.ParseShowRoundTrip | Program.cs:129-137 | Every `int`, printed as the list command prints ids, is read back by `int.TryParse` as the same value. |
| Numbers.ParseDigits | Program.cs:137 | A non-empty run of decimal digits whose value fits in an `int` parses to that value. |
| Numbers.Show | Program.cs:129 | `int.ToString()` as the list line prints `{task.Key}`. A non-negative id prints as digits denoting it, with no leading zero. A negative id prints as `-` followed by digits denoting its magnitude, again with no leading zero. |
| Numbers.Digits | Program.cs:129 | The printed form of a natural number is a non-empty string of digits that denotes that number and has no leading zero. |
| Tokenizer.Lex | Program.cs:226-231 | Each match is either a closed quote without `"` or line feed inside, or a non-empty run without white space. A run that begins with an unclosed `"` has no other `"`. There are no matches exactly when the line is empty or all white space. |
| Tokenizer.LexWellFormed | Program.cs:226-231 | On a line without line feeds the matches form a `WellFormed` sequence: besides each match's shape, an unclosed `"` is followed by no `"` in the rest of the line. With `LexRender`, this makes the well-formed sequences exactly the scanner's outputs on such lines. |
| Tokenizer.SplitInput | Program.cs:224-235 | A line yields zero tokens exactly when it is empty or all white space. Each token is either the inside of a closed quote (no `"`, no line feed) or a non-empty token without white space. |
| Tokenizer.LexRender | Program.cs:226-231 | Every well-formed sequence of matches, written out with single spaces, is scanned back into exactly that sequence. Together with `Lex`'s contract, the well-formed sequences are exactly what the scanner produces. |
| Tokenizer.SplitRender | Program.cs:224-235 | The tokens of a rendered line are the texts of its pieces, with the quotes stripped. |
| Tokenizer.SplitWords | Program.cs:224-235 | Two words without white space, separated by one space, split into exactly those two words, provided a leading unclosed `"` in the first is not closed by a `"` in the second. |
| Tokenizer.SplitQuotedArgs | Program.cs:224-235 | A word followed by two quoted arguments splits into the word and the arguments with their quotes removed and inner spaces kept. |
| Tokenizer.SplitQuotedExample | Program.cs:224-235 | `add "buy milk" "2% organic"` splits into `add`, `buy milk`, `2% organic`. |
| Tokenizer.SplitUnclosedExample | Program.cs:224-235 | `add "unclosed` splits into `add` and `"unclosed`. An unclosed quote stays part of an unquoted token. |
| Tokenizer.SplitInnerQuoteExample | Program.cs:224-235 | `ab"c d"` splits into `ab"c` and `d"`. A quote inside a word opens nothing. |
| Dispatcher.Classify | Program.cs:58-90 | A word selects a command exactly when its lower-case form is that command's name. Any other word is `Unknown`, the `default` branch. |
| Dispatcher.ClassifyName | Program.cs:58-86 | Each command's name selects that command. |
| Dispatcher.ClassifyIgnoresCase | Program.cs:58 | A word and its lower-case form select the same command. |
| Dispatcher.ClassifyMixedCase | Program.cs:58 | `ADD` selects add and `eXiT` selects exit. |
| Dispatcher.DispatchAsWritten | Program.cs:48-58 | Only the empty line gets the hint. A non-empty all-white-space line, and only such a line, reaches `parts[0]` on an empty array. Every other line is dispatched on its first token. |
| Dispatcher.Dispatch | Program.cs:50-58 | The corrected decision never indexes an empty token array. It gives the hint exactly for empty or all-white-space lines. |
| Dispatcher.DispatchAgrees | Program.cs:50-58 | The corrected decision equals the source's on every line where the source does not crash. On the lines where it crashes, the corrected decision is the hint. |
| Dispatcher.BlankLineCrashes | Program.cs:50-58 | The line `" "` crashes the source's loop, and the corrected loop shows the hint instead. |
| Dispatcher.Execute | Program.cs:58-90 | Once a line is decided, one loop pass never lowers the counter, and any id it adds is at or above the old counter. It keeps `Inv`, and under `Inv` add never collides. The loop stops exactly on exit, an escaped duplicate-key exception, or the `parts[0]` crash. Hint, list, help, unknown commands and the crash change nothing, and none of them saves. Exit saves. The event is exit, list, help or unknown exactly when the command is. Add, complete, delete and edit give exactly the result of their handler on the tokens. |
| Dispatcher.StepLine | Program.cs:45-91 | One pass of the source's loop. Only an empty line is hinted. A non-empty line of white space crashes: the loop stops with the state unchanged and no save. The loop stops exactly on exit, a duplicate key or that crash, and `Inv` is kept. The pass exits exactly when the source's decision is the exit command. |
| Dispatcher.StepLineCorrected | Program.cs:50-58 | The pass with the corrected decision never crashes. Every empty or all-white-space line gets the hint and changes nothing, and the loop stops only on exit or a duplicate key. It exits exactly when the corrected decision is the exit command. |
| Dispatcher.StepLineAgrees | Program.cs:50-58 | The corrected pass equals the source's pass on every line the source survives. Where the source crashes, the corrected pass hints and continues. |
| Dispatcher.Run | Program.cs:45-92 | The `while (true)` loop over a sequence of input lines, ending at the first pass that stops it or when the lines run out. Over any run, even from a store that breaks `Inv`, the counter never goes back, and every id gained is at or above the starting counter. |
| Dispatcher.RunAppend | Program.cs:45-92 | Feed lines `a` then `b`. If some pass over `a` stops the loop, the lines of `b` are never read and the result is the run over `a`. Otherwise the loop continues over `b` from the state `a` left. |
| Dispatcher.BlankLineEndsRun | Program.cs:45-58 | In the source's loop, the line `" "` ends the run with the state unchanged, whatever lines follow. |
| Dispatcher.RunKeepsIdsFresh | Program.cs:42-92 | Over any sequence of lines fed to the source's loop, `Inv` holds and the counter never goes back. Every id present at the end was present at the start or handed out at or above the starting counter. |
| Dispatcher.RunPrefixes | Program.cs:42-92 | Compare the loop after `i` lines with the loop after `j >= i` lines. The counter has not gone back, and every id gained in between is at or above the counter after `i` lines. |
| Dispatcher.FreedIdNeverReissued | Program.cs:96-116 | Say an id is in the store after `i` lines and gone after `m >= i` lines. Then it is absent after every later prefix `j >= m`. A deleted id is never handed out again. |
| Dispatcher.AddedIdIsNew | Program.cs:96-116 | An id that line `j` adds to the store was absent after every earlier prefix of the run. |
| Dispatcher.DeletedIdScenario | Program.cs:96-166 | From an empty store, `add "A"`, `delete 1`, `add "B"` leaves only task B, under id 2, with the counter at 3. |
| Overflow.GetNextTaskIdAsWritten | Program.cs:271-282 | With 32-bit wrap-around the allocator is right while `int.MaxValue` is not an id: the result is above every id and is either 1 or one more than a stored id, so it is max(0, largest id) + 1. Once `int.MaxValue` is an id, the result is `int.MinValue`, which is not above any stored id. |
| Overflow.WrappedIdCollides | Program.cs:96-109 | With ids `int.MaxValue` and `int.MinValue` stored, the wrapped counter breaks `Inv`, and the next add throws on the duplicate key. |

## Left out

- `LoadTasks`/`SaveTasks` (Program.cs:238-268) are left out. They are file I/O plus `System.Text.Json`, whose encoding is not part of this model. A save is only a flag in each handler's reply, and a session starts from any store that satisfies `Inv`, for example a loaded store with the counter from `GetNextTaskId`. A `tasks.json` holding `null` would make `Deserialize(...)!` return null and make `GetNextTaskId` throw. That path is not modelled either.
- Console output text and the help text (Program.cs:211-221) are not modelled. Events record which message kind a step produced. The list command's output is modelled as lines.
- `Console.ReadLine` returning null at end of input is left out. `IsNullOrEmpty` treats null as empty, so the source loop prints the hint forever. The model's lines are strings only.
- Tasks.ListLines: the dictionary's enumeration order is not specified by .NET, so it is a parameter (`Enumerates`) rather than a fixed order.
- Dispatcher.Classify: `ToLower` is culture-sensitive in .NET. The model folds ASCII letters only.
- Numbers.TryParseInt32: culture-specific sign symbols are not modelled. Neither is .NET's acceptance of trailing NUL characters. The invariant culture's `+`/`-`, ASCII digits and white-space trimming are modelled.
- Tokenizer.IsWhitespace: the regex engine works on UTF-16 code units and Dafny characters are Unicode scalar values. The two agree on every white-space character, because all of them lie in the Basic Multilingual Plane.
- Tasks.HandleAdd: the counter increment is unbounded. The source's `nextTaskId++` is an unchecked 32-bit increment that wraps after id 2147483647, the same defect as the second Findings row. Ids above `int.MaxValue` also cannot be named by complete, delete or edit, because `TryParseInt32` rejects them.
- The parameterless `Task()` constructor, used only by deserialization (Program.cs:17), is left out. It can leave `Name` and `Description` null. Strings are always present in the model.

## Findings

| source | as written | input that shows it | evidently intended | confidence | as-written member | corrected member |
|---|---|---|---|---|---|---|
| Program.cs:50-58 | `IsNullOrEmpty` lets a non-empty line of white space through. `SplitInput` returns no tokens, and `parts[0]` throws `IndexOutOfRangeException`. Nothing catches it, so the program ends. | the line `" "` (Dispatcher.BlankLineCrashes; in the loop, Dispatcher.BlankLineEndsRun) | such a line gets the same "help" hint as an empty line | high; not executed | Dispatcher.DispatchAsWritten | Dispatcher.Dispatch |
| Program.cs:271-282 | `maxId + 1` is unchecked `int` arithmetic. If the loaded store holds id 2147483647, the next id wraps to -2147483648, which is not above the stored ids. | a `tasks.json` with ids 2147483647 and -2147483648: the next add throws on a duplicate key (Overflow.WrappedIdCollides) | the next id is above every stored id | medium (assumes the default unchecked build); not executed | Overflow.GetNextTaskIdAsWritten | Tasks.GetNextTaskId |

=== FILE: dispatcher.dfy ===
/**
 The command loop of `Main` (Program.cs): the check for an empty line, tokenizing, the
 case-insensitive switch on the first token, and the call of the matching handler. One
 line is one `StepLine`; `Run` feeds a sequence of lines until `exit`.
 */
module Dispatcher {
  import opened Tokenizer
  import opened Tasks
  import Numbers
  import opened Wrappers

  datatype Command = Add | List | Complete | Delete | Edit | Exit | Help | Unknown

  /** `char.ToLower` restricted to ASCII letters. */
  function AsciiLower(c: char): char {
    if 'A' <= c <= 'Z' then (c as int - 'A' as int + 'a' as int) as char else c
  }

  /** `string.ToLower()` on the command word, with ASCII case folding. */
  function Lower(w: string): (r: string)
    ensures |r| == |w|
    ensures forall i :: 0 <= i < |w| ==> r[i] == AsciiLower(w[i])
  {
    seq(|w|, i requires 0 <= i < |w| => AsciiLower(w[i]))
  }

  /** The word a command is selected by, in lower case. */
  function Name(c: Command): string {
    match c
    case Add => "add"
    case List => "list"
    case Complete => "complete"
    case Delete => "delete"
    case Edit => "edit"
    case Exit => "exit"
    case Help => "help"
    case Unknown => ""
  }

  const Names: set<string> := {"add", "list", "complete", "delete", "edit", "exit", "help"}

  /**
   The `switch (parts[0].ToLower())`: a word selects the command whose name it spells in any
   mixture of cases; every other word falls to the `default` branch.
   */
  function Classify(word: string): (c: Command)
    ensures c != Unknown ==> Lower(word) == Name(c)
    ensures c == Unknown <==> Lower(word) !in Names
  {
    var w := Lower(word);
    if w == "add" then Add
    else if w == "list" then List
    else if w == "complete" then Complete
    else if w == "delete" then Delete
    else if w == "edit" then Edit
    else if w == "exit" then Exit
    else if w == "help" then Help
    else Unknown
  }

  lemma LowerOfLower(w: string)
    ensures Lower(Lower(w)) == Lower(w)
  {
  }

  /** Each command is selected by its own name. */
  lemma ClassifyName(c: Command)
    requires c != Unknown
    ensures Classify(Name(c)) == c
  {
    assert Lower(Name(c)) == Name(c);
  }

  /** Case does not matter: a word and its lower-case form select the same command. */
  lemma ClassifyIgnoresCase(w: string)
    ensures Classify(w) == Classify(Lower(w))
  {
    LowerOfLower(w);
  }

  /** Upper-case and mixed-case command words are accepted. */
  lemma ClassifyMixedCase(upper: string, mixed: string)
    requires upper == "ADD" && mixed == "eXiT"
    ensures Classify(upper) == Add && Classify(mixed) == Exit
  {
    assert Lower(upper) == "add";
    assert Lower(mixed) == "exit";
  }

  /** What `Main` does with one input line before any handler runs. */
  datatype Decision =
    | Hint                                           // the "Type help" message, nothing dispatched
    | IndexOutOfRange                                // `parts[0]` on an empty token array: the process dies
    | Dispatched(command: Command, parts: seq<string>)

  /**
   The decision as the source makes it: only an EMPTY line gets the hint. A non-empty line of
   white space tokenizes to no tokens, and reading the first token then fails.
   */
  function DispatchAsWritten(line: string): (d: Decision)
    ensures d == Hint <==> |line| == 0
    ensures d == IndexOutOfRange <==> |line| > 0 && AllWhitespace(line)
    ensures d.Dispatched? ==> |d.parts| > 0 && d.parts == SplitInput(line) && d.command == Classify(d.parts[0])
  {
    if |line| == 0 then Hint
    else
      var parts := SplitInput(line);
      if |parts| == 0 then IndexOutOfRange else Dispatched(Classify(parts[0]), parts)
  }

  /** The intended decision: every line without tokens, empty or not, gets the hint. */
  function Dispatch(line: string): (d: Decision)
    ensures !d.IndexOutOfRange?
    ensures d == Hint <==> AllWhitespace(line)
    ensures d.Dispatched? ==> |d.parts| > 0 && d.parts == SplitInput(line) && d.command == Classify(d.parts[0])
  {
    var parts := SplitInput(line);
    if |parts| == 0 then Hint else Dispatched(Classify(parts[0]), parts)
  }

  /** The intended decision differs from the source's only on the lines where the source crashes. */
  lemma DispatchAgrees(line: string)
    ensures DispatchAsWritten(line) != IndexOutOfRange ==> Dispatch(line) == DispatchAsWritten(line)
    ensures DispatchAsWritten(line) == IndexOutOfRange ==> Dispatch(line) == Hint
  {
  }

  /** A line holding a single space crashes the source's loop. */
  lemma BlankLineCrashes(line: string)
    requires line == " "
    ensures DispatchAsWritten(line) == IndexOutOfRange
    ensures Dispatch(line) == Hint
  {
    assert AllWhitespace(line);
  }

  /** What one line produced besides the new state. */
  datatype Event =
    | Hinted
    | Handled(outcome: Outcome)
    | Listed
    | Helped
    | Unrecognized
    | Exited
    | Crashed                                        // `parts[0]` threw and nothing caught it

  /**
   One iteration of the loop: the new state, what happened, whether `SaveTasks` ran, and
   whether the loop ends (`exit`, or an exception escaping `Main`).
   */
  datatype Step = Step(session: Session, event: Event, save: bool, stop: bool)

  function FromReply(r: Reply): Step {
    Step(r.session, Handled(r.outcome), r.save, r.outcome.DuplicateKey?)
  }

  /**
   The loop body once the decision about a line is made. Ids only grow: the counter never
   decreases and a task id that was not there before is at least the old counter. The store's
   invariant is kept, so `Dictionary.Add` never meets a duplicate id. The loop ends on exit
   and on an exception; hint, list, help, unknown words and the crash leave the state alone.
   */
  function Execute(s: Session, d: Decision): (st: Step)
    ensures st.session.nextId >= s.nextId
    ensures forall k :: k in st.session.tasks && k !in s.tasks ==> k >= s.nextId
    ensures Inv(s) ==> Inv(st.session) && st.event != Handled(DuplicateKey)
    ensures st.stop <==> st.event in {Exited, Handled(DuplicateKey), Crashed}
    ensures st.event in {Hinted, Listed, Helped, Unrecognized, Exited, Crashed} ==> st.session == s
    ensures st.event == Exited ==> st.save
    ensures st.event in {Hinted, Listed, Helped, Unrecognized, Crashed} ==> !st.save
    ensures st.event == Crashed <==> d == IndexOutOfRange
    ensures st.event == Hinted <==> d == Hint
    ensures st.event == Exited <==> d.Dispatched? && d.command == Exit
    ensures st.event == Listed <==> d.Dispatched? && d.command == List
    ensures st.event == Helped <==> d.Dispatched? && d.command == Help
    ensures st.event == Unrecognized <==> d.Dispatched? && d.command == Unknown
    ensures d.Dispatched? && d.command == Add ==> st == FromReply(HandleAdd(s, d.parts))
    ensures d.Dispatched? && d.command == Complete ==> st == FromReply(HandleComplete(s, d.parts))
    ensures d.Dispatched? && d.command == Delete ==> st == FromReply(HandleDelete(s, d.parts))
    ensures d.Dispatched? && d.command == Edit ==> st == FromReply(HandleEdit(s, d.parts))
  {
    match d
    case Hint => Step(s, Hinted, false, false)
    case IndexOutOfRange => Step(s, Crashed, false, true)
    case Dispatched(command, parts) =>
      match command
      case Add => FromReply(HandleAdd(s, parts))
      case List => Step(s, Listed, false, false)
      case Complete => FromReply(HandleComplete(s, parts))
      case Delete => FromReply(HandleDelete(s, parts))
      case Edit => FromReply(HandleEdit(s, parts))
      case Exit => Step(s, Exited, true, true)
      case Help => Step(s, Helped, false, false)
      case Unknown => Step(s, Unrecognized, false, false)
  }

  /**
   One pass of the `while (true)` body of the source on the line `line`: only an empty line
   is hinted, and a non-empty line of white space ends the program without a save.
   */
  function StepLine(s: Session, line: string): (st: Step)
    ensures st.event == Hinted <==> |line| == 0
    ensures st.event == Crashed <==> |line| > 0 && AllWhitespace(line)
    ensures st.event == Crashed ==> st.session == s && st.stop && !st.save
    ensures st.event == Exited <==> DispatchAsWritten(line).Dispatched? && DispatchAsWritten(line).command == Exit
    ensures st.stop <==> st.event in {Exited, Handled(DuplicateKey), Crashed}
    ensures Inv(s) ==> Inv(st.session) && st.event != Handled(DuplicateKey)
  {
    Execute(s, DispatchAsWritten(line))
  }

  /**
   The loop body with the corrected decision: no line crashes it, and every line without
   tokens gets the hint and changes nothing.
   */
  function StepLineCorrected(s: Session, line: string): (st: Step)
    ensures st.event != Crashed
    ensures st.event == Hinted <==> AllWhitespace(line)
    ensures AllWhitespace(line) ==> st == Step(s, Hinted, false, false)
    ensures st.event == Exited <==> Dispatch(line).Dispatched? && Dispatch(line).command == Exit
    ensures st.stop <==> st.event in {Exited, Handled(DuplicateKey)}
  {
    Execute(s, Dispatch(line))
  }

  /** The two loop bodies agree on every line the source survives. */
  lemma StepLineAgrees(s: Session, line: string)
    ensures StepLine(s, line).event != Crashed ==> StepLineCorrected(s, line) == StepLine(s, line)
    ensures StepLine(s, line).event == Crashed ==> StepLineCorrected(s, line) == Step(s, Hinted, false, false)
  {
    DispatchAgrees(line);
  }

  /** The state after feeding `lines` to the source's loop, up to the first line that ends it. */
  function Run(s: Session, lines: seq<string>): (r: Session)
    ensures s.nextId <= r.nextId
    ensures forall k :: k in r.tasks && k !in s.tasks ==> s.nextId <= k
    decreases |lines|
  {
    if |lines| == 0 then s
    else
      var st := StepLine(s, lines[0]);
      if st.stop then st.session else Run(st.session, lines[1..])
  }

  /** Some pass of the source's loop over `lines`, started in `s`, stops it. */
  predicate Halts(s: Session, lines: seq<string>)
    decreases |lines|
  {
    |lines| > 0 && (StepLine(s, lines[0]).stop || Halts(StepLine(s, lines[0]).session, lines[1..]))
  }

  /**
   Feeding `a` then `b` to the loop: once a pass over `a` stops it, the lines of `b` are never
   read; otherwise the loop carries on over `b` from where `a` left it.
   */
  lemma {:induction false} RunAppend(s: Session, a: seq<string>, b: seq<string>)
    ensures Run(s, a + b) == if Halts(s, a) then Run(s, a) else Run(Run(s, a), b)
    decreases |a|
  {
    if |a| == 0 {
      assert a + b == b;
    } else {
      var st := StepLine(s, a[0]);
      assert (a + b)[0] == a[0];
      assert (a + b)[1..] == a[1..] + b;
      if !st.stop {
        RunAppend(st.session, a[1..], b);
      }
    }
  }

  /** A line of white space ends the source's loop: the lines after it are never read. */
  lemma BlankLineEndsRun(s: Session, line: string, rest: seq<string>)
    requires line == " "
    ensures Run(s, [line] + rest) == s
  {
    BlankLineCrashes(line);
    assert ([line] + rest)[0] == line;
  }

  /**
   Over any run of commands the invariant holds, the counter never goes back, and every id
   present at the end was either there at the start or handed out afterwards, at or above the
   starting counter.
   */
  lemma {:induction false} RunKeepsIdsFresh(s: Session, lines: seq<string>)
    requires Inv(s)
    ensures Inv(Run(s, lines))
    ensures s.nextId <= Run(s, lines).nextId
    ensures forall k :: k in Run(s, lines).tasks && k !in s.tasks ==> s.nextId <= k
    decreases |lines|
  {
    if |lines| > 0 {
      var st := StepLine(s, lines[0]);
      if !st.stop {
        RunKeepsIdsFresh(st.session, lines[1..]);
      }
    }
  }

  /**
   Between any two points of a run, the counter does not go back, and every id that appears
   in between is at or above the counter of the earlier point.
   */
  lemma {:induction false} RunPrefixes(s: Session, lines: seq<string>, i: nat, j: nat)
    requires Inv(s) && i <= j <= |lines|
    ensures Run(s, lines[..i]).nextId <= Run(s, lines[..j]).nextId
    ensures forall k :: k in Run(s, lines[..j]).tasks && k !in Run(s, lines[..i]).tasks
                        ==> Run(s, lines[..i]).nextId <= k
    decreases |lines|
  {
    if i == 0 {
      assert lines[..0] == [];
      RunKeepsIdsFresh(s, lines[..j]);
    } else {
      var st := StepLine(s, lines[0]);
      RunPrefix(s, lines, i);
      RunPrefix(s, lines, j);
      if !st.stop {
        RunPrefixes(st.session, lines[1..], i - 1, j - 1);
      }
    }
  }

  /** The first `n` lines of a run: the first line's step, then the next `n - 1` lines. */
  lemma RunPrefix(s: Session, lines: seq<string>, n: nat)
    requires 0 < n <= |lines|
    ensures var st := StepLine(s, lines[0]);
            Run(s, lines[..n]) == if st.stop then st.session else Run(st.session, lines[1..][..n - 1])
  {
    assert lines[..n][0] == lines[0];
    assert lines[..n][1..] == lines[1..][..n - 1];
  }

  /**
   Once an id is gone from the store, no later line of the run brings it back: an id deleted
   during the run is never handed out again.
   */
  lemma FreedIdNeverReissued(s: Session, lines: seq<string>, i: nat, m: nat, j: nat, k: int)
    requires Inv(s) && i <= m <= j <= |lines|
    requires k in Run(s, lines[..i]).tasks && k !in Run(s, lines[..m]).tasks
    ensures k !in Run(s, lines[..j]).tasks
  {
    RunKeepsIdsFresh(s, lines[..i]);
    RunPrefixes(s, lines, i, m);
    RunPrefixes(s, lines, m, j);
  }

  /** An id that a line adds was never in the store at any earlier point of the run. */
  lemma AddedIdIsNew(s: Session, lines: seq<string>, i: nat, j: nat, k: int)
    requires Inv(s) && i < j <= |lines|
    requires k in Run(s, lines[..j]).tasks && k !in Run(s, lines[..j - 1]).tasks
    ensures k !in Run(s, lines[..i]).tasks
  {
    RunKeepsIdsFresh(s, lines[..i]);
    RunPrefixes(s, lines, i, j - 1);
    RunPrefixes(s, lines, j - 1, j);
  }

  /** The line `verb "arg"` tokenizes to the verb and the unquoted argument. */
  lemma TokensOfQuoted(line: string, verb: string, arg: string)
    requires |verb| > 0 && NoWhitespace(verb) && verb[0] != '"'
    requires '"' !in arg && '\n' !in arg
    requires line == verb + " \"" + arg + "\""
    ensures SplitInput(line) == [verb, arg]
  {
    var ps := [Bare(verb), Quoted(arg)];
    RenderTwo(ps[0], ps[1]);
    assert [ps[0], ps[1]] == ps;
    assert Render(ps) == line;
    assert WellFormed(ps) by {
      assert WellFormed(ps[1..]) by {
        assert ps[1..][1..] == [];
      }
    }
    SplitRender(ps);
    assert Texts(ps) == [verb, arg];
  }

  /** The line `verb arg` with two unquoted words tokenizes to those words. */
  lemma TokensOfBare(line: string, verb: string, arg: string)
    requires |verb| > 0 && NoWhitespace(verb) && verb[0] != '"'
    requires |arg| > 0 && NoWhitespace(arg) && '"' !in arg
    requires line == verb + " " + arg
    ensures SplitInput(line) == [verb, arg]
  {
    SplitWords(line, verb, arg);
  }

  /** An add line with a quoted name on a store that satisfies the invariant. */
  lemma AddLineStep(s: Session, line: string, name: string)
    requires Inv(s) && '"' !in name && '\n' !in name
    requires line == "add \"" + name + "\""
    ensures StepLine(s, line)
         == Step(Session(s.tasks[s.nextId := Task(name, "", false)], s.nextId + 1), Handled(Added(s.nextId)), true, false)
  {
    assert line == "add" + " \"" + name + "\"";
    TokensOfQuoted(line, "add", name);
    ClassifyName(Add);
  }

  lemma DispatchDeleteOne(line: string, parts: seq<string>)
    requires line == "delete 1" && parts == ["delete", "1"]
    ensures DispatchAsWritten(line) == Dispatched(Delete, parts)
  {
    assert line == "delete" + " " + "1";
    TokensOfBare(line, "delete", "1");
    ClassifyName(Delete);
  }

  lemma ParseOne(parts: seq<string>)
    requires parts == ["delete", "1"]
    ensures IdArgument(parts) == Some(1)
  {
    Numbers.ParseDigits(parts[1]);
    assert Numbers.DigitsValue(parts[1]) == 1;
  }

  /** A dispatched delete with a parsable id present in the store removes that id. */
  lemma DeleteStep(s: Session, line: string, parts: seq<string>, id: int)
    requires DispatchAsWritten(line) == Dispatched(Delete, parts)
    requires |parts| == 2 && IdArgument(parts) == Some(id) && id in s.tasks
    ensures StepLine(s, line) == Step(Session(s.tasks - {id}, s.nextId), Handled(Deleted(id)), true, false)
  {
  }

  /** A line that does not stop the loop hands the rest of the lines to the state it produced. */
  lemma RunStep(s: Session, lines: seq<string>, next: Session, final: Session)
    requires |lines| > 0
    requires StepLine(s, lines[0]).session == next && !StepLine(s, lines[0]).stop
    requires Run(next, lines[1..]) == final
    ensures Run(s, lines) == final
  {
  }

  /**
   Starting from an empty store: `add "A"`, `delete 1`, `add "B"`. The second task gets id 2,
   not the freed id 1.
   */
  lemma DeletedIdScenario(l1: string, l2: string, l3: string)
    requires l1 == "add \"A\"" && l2 == "delete 1" && l3 == "add \"B\""
    ensures Run(Session(map[], 1), [l1, l2, l3]) == Session(map[2 := Task("B", "", false)], 3)
  {
    var s0 := Session(map[], 1);
    var s1 := Session(map[1 := Task("A", "", false)], 2);
    var s3 := Session(map[2 := Task("B", "", false)], 3);
    AddLineStep(s0, l1, "A");
    ScenarioTail(s1, l2, l3, s3);
    assert [l1, l2, l3][1..] == [l2, l3];
    RunStep(s0, [l1, l2, l3], s1, s3);
  }

  lemma ScenarioTail(s1: Session, l2: string, l3: string, s3: Session)
    requires s1 == Session(map[1 := Task("A", "", false)], 2) && l2 == "delete 1" && l3 == "add \"B\""
    requires s3 == Session(map[2 := Task("B", "", false)], 3)
    ensures Run(s1, [l2, l3]) == s3
  {
    var s2 := Session(map[], 2);
    DeleteOneStep(s1, l2, s2);
    ScenarioLast(s2, l3, s3);
    assert [l2, l3][1..] == [l3];
    RunStep(s1, [l2, l3], s2, s3);
  }

  lemma ScenarioLast(s2: Session, l3: string, s3: Session)
    requires s2 == Session(map[], 2) && l3 == "add \"B\""
    requires s3 == Session(map[2 := Task("B", "", false)], 3)
    ensures Run(s2, [l3]) == s3
  {
    AddLineStep(s2, l3, "B");
    assert [l3][1..] == [];
    RunStep(s2, [l3], s3, s3);
  }

  lemma DeleteOneStep(s1: Session, l2: string, s2: Session)
    requires s1 == Session(map[1 := Task("A", "", false)], 2) && l2 == "delete 1"
    requires s2 == Session(map[], 2)
    ensures StepLine(s1, l2) == Step(s2, Handled(Deleted(1)), true, false)
  {
    var parts := ["delete", "1"];
    DispatchDeleteOne(l2, parts);
    ParseOne(parts);
    DeleteStep(s1, l2, parts, 1);
    assert s1.tasks - {1} == s2.tasks;
  }
}

=== FILE: numbers.dfy ===
/**
 Thirty-two-bit integers as the task manager uses them: the range of a C# `int`,
 the unchecked wrap-around of `int` addition, `int.ToString()` (used when a task id
 is printed) and `int.TryParse` (used on the id argument of complete, delete and edit).
 */
module Numbers {
  import opened Wrappers

  const MinInt32: int := -0x8000_0000
  const MaxInt32: int := 0x7FFF_FFFF

  predicate IsInt32(n: int) {
    MinInt32 <= n <= MaxInt32
  }

  /** The value an unchecked C# `int` operation produces for the mathematical result `n`. */
  function Wrap32(n: int): (r: int)
    ensures IsInt32(r)
    ensures (r - n) % 0x1_0000_0000 == 0
    ensures IsInt32(n) ==> r == n
  {
    (n - MinInt32) % 0x1_0000_0000 + MinInt32
  }

  predicate IsDigit(c: char) {
    '0' <= c <= '9'
  }

  predicate AllDigits(s: string) {
    forall i :: 0 <= i < |s| ==> IsDigit(s[i])
  }

  function DigitValue(c: char): (d: nat)
    requires IsDigit(c)
    ensures d < 10
  {
    c as int - '0' as int
  }

  function DigitChar(d: nat): (c: char)
    requires d < 10
    ensures IsDigit(c) && DigitValue(c) == d
  {
    ('0' as int + d) as char
  }

  /** The number a string of decimal digits denotes, most significant digit first. */
  function DigitsValue(ds: string): nat
    requires AllDigits(ds)
  {
    if |ds| == 0 then 0 else 10 * DigitsValue(ds[..|ds| - 1]) + DigitValue(ds[|ds| - 1])
  }

  /** The shortest decimal representation of a natural number. */
  function Digits(n: nat): (ds: string)
    ensures |ds| > 0 && AllDigits(ds)
    ensures DigitsValue(ds) == n
    ensures ds[0] == '0' ==> ds == "0"
  {
    if n < 10 then [DigitChar(n)] else Digits(n / 10) + [DigitChar(n % 10)]
  }

  /** `int.ToString()` with the invariant culture's minus sign. */
  function Show(n: int): (s: string)
    ensures |s| > 0
    ensures n < 0 <==> s[0] == '-'
    ensures n >= 0 ==> AllDigits(s) && DigitsValue(s) == n && (s[0] == '0' ==> n == 0)
    ensures n < 0 ==> |s| > 1 && AllDigits(s[1..]) && -(DigitsValue(s[1..]) as int) == n && s[1] != '0'
  {
    if n < 0 then "-" + Digits(-n) else Digits(n)
  }

  /** The white space `NumberStyles.Integer` lets `int.TryParse` skip: U+0009 to U+000D and U+0020. */
  predicate IsNumberWhite(c: char) {
    c == ' ' || '\t' <= c <= '\r'
  }

  function TrimStart(s: string): (t: string)
    ensures |t| <= |s|
    ensures t == s[|s| - |t|..]
    ensures |t| > 0 ==> !IsNumberWhite(t[0])
    ensures forall i :: 0 <= i < |s| - |t| ==> IsNumberWhite(s[i])
  {
    if |s| > 0 && IsNumberWhite(s[0]) then TrimStart(s[1..]) else s
  }

  function TrimEnd(s: string): (t: string)
    ensures |t| <= |s|
    ensures t == s[..|t|]
    ensures |t| > 0 ==> !IsNumberWhite(t[|t| - 1])
    ensures forall i :: |t| <= i < |s| ==> IsNumberWhite(s[i])
  {
    if |s| > 0 && IsNumberWhite(s[|s| - 1]) then TrimEnd(s[..|s| - 1]) else s
  }

  /**
   The sign and digits part of `int.TryParse`, after the white space is trimmed: an optional
   `+` or `-`, one or more ASCII digits, and a value inside the `int` range.
   */
  function ParseSigned(t: string): (r: Option<int>)
    ensures r.Some? ==> IsInt32(r.value)
    ensures r.Some? ==> |t| > 0 && IsDigit(t[|t| - 1])
  {
    var negative := |t| > 0 && t[0] == '-';
    var ds := if |t| > 0 && (t[0] == '-' || t[0] == '+') then t[1..] else t;
    if |ds| == 0 || !AllDigits(ds) then None
    else
      var v: int := if negative then -(DigitsValue(ds) as int) else DigitsValue(ds);
      if IsInt32(v) then Some(v) else None
  }

  /**
   `int.TryParse(s, out v)` with `NumberStyles.Integer`: optional surrounding white space,
   an optional `+` or `-`, one or more ASCII digits, and a value inside the `int` range.
   */
  function TryParseInt32(s: string): (r: Option<int>)
    ensures r.Some? ==> IsInt32(r.value)
    ensures (forall i :: 0 <= i < |s| ==> !IsDigit(s[i])) ==> r.None?
  {
    var t := TrimEnd(TrimStart(s));
    var r := ParseSigned(t);
    if r.Some? then
      var u := TrimStart(s);
      assert t[|t| - 1] == u[|t| - 1];
      assert u[|t| - 1] == s[|s| - |u| + |t| - 1];
      r
    else r
  }

  /** An unsigned run of digits whose value fits in an `int` parses to that value. */
  lemma ParseDigits(s: string)
    requires |s| > 0 && AllDigits(s) && DigitsValue(s) <= MaxInt32
    ensures TryParseInt32(s) == Some(DigitsValue(s))
  {
    ParseUnsigned(s);
  }

  /** Every `int` that `ToString` prints is read back by `TryParse` as the same value. */
  lemma ParseShowRoundTrip(n: int)
    requires IsInt32(n)
    ensures TryParseInt32(Show(n)) == Some(n)
  {
    var sign: string := if n < 0 then "-" else "";
    var d := Digits(if n < 0 then -n else n);
    ShowParts(n, sign, d);
    ParseNumeral(Show(n), [], sign, d, []);
  }

  /** `Show` writes a minus sign for negative numbers, then the digits of the magnitude. */
  lemma ShowParts(n: int, sign: string, d: string)
    requires sign == (if n < 0 then "-" else "") && d == Digits(if n < 0 then -n else n)
    ensures AllNumberWhite([])
    ensures Show(n) == [] + sign + d + []
    ensures SignedValue(sign, d) == n
  {
    assert [] + sign + d + [] == sign + d;
  }

  predicate AllNumberWhite(w: string) {
    forall i :: 0 <= i < |w| ==> IsNumberWhite(w[i])
  }

  /** Leading white space is dropped up to the first character that is not white space. */
  lemma {:induction false} TrimStartWhite(w: string, rest: string)
    requires AllNumberWhite(w)
    requires |rest| == 0 || !IsNumberWhite(rest[0])
    ensures TrimStart(w + rest) == rest
    decreases |w|
  {
    if |w| == 0 {
      assert w + rest == rest;
    } else {
      assert (w + rest)[0] == w[0];
      assert (w + rest)[1..] == w[1..] + rest;
      TrimStartWhite(w[1..], rest);
    }
  }

  /** Trailing white space is dropped back to the last character that is not white space. */
  lemma {:induction false} TrimEndWhite(rest: string, w: string)
    requires AllNumberWhite(w)
    requires |rest| == 0 || !IsNumberWhite(rest[|rest| - 1])
    ensures TrimEnd(rest + w) == rest
    decreases |w|
  {
    if |w| == 0 {
      assert rest + w == rest;
    } else {
      var u := rest + w;
      assert u[|u| - 1] == w[|w| - 1];
      assert u[..|u| - 1] == rest + w[..|w| - 1];
      TrimEndWhite(rest, w[..|w| - 1]);
    }
  }

  /** The value `int.TryParse` gives a numeral with the sign `sign` and the digits `ds`, before the range check. */
  function SignedValue(sign: string, ds: string): int
    requires AllDigits(ds)
  {
    if sign == "-" then -(DigitsValue(ds) as int) else DigitsValue(ds)
  }

  /** A sign followed by digits is read as its signed value, and rejected outside the `int` range. */
  lemma ParseSignedDigits(sign: string, ds: string)
    requires sign == "" || sign == "+" || sign == "-"
    requires |ds| > 0 && AllDigits(ds)
    ensures ParseSigned(sign + ds)
         == (if IsInt32(SignedValue(sign, ds)) then Some(SignedValue(sign, ds)) else None)
  {
    var t := sign + ds;
    if sign != "" {
      assert t[0] == sign[0];
      assert t[1..] == ds;
    } else {
      assert t == ds;
    }
  }

  /**
   Every numeral `int.TryParse` accepts in form: white space, an optional sign, one or more
   digits, white space. It parses to its value when that value is an `int`, and is rejected
   otherwise; out-of-range numerals do not wrap.
   */
  lemma ParseNumeral(line: string, ws1: string, sign: string, ds: string, ws2: string)
    requires AllNumberWhite(ws1) && AllNumberWhite(ws2)
    requires sign == "" || sign == "+" || sign == "-"
    requires |ds| > 0 && AllDigits(ds)
    requires line == ws1 + sign + ds + ws2
    ensures TryParseInt32(line)
         == (if IsInt32(SignedValue(sign, ds)) then Some(SignedValue(sign, ds)) else None)
  {
    var core := sign + ds;
    assert line == ws1 + core + ws2;
    assert |core| > 0 && !IsNumberWhite(core[0]) && !IsNumberWhite(core[|core| - 1]) by {
      assert core[|core| - 1] == ds[|ds| - 1];
      assert core[0] == (if sign == "" then ds[0] else sign[0]);
    }
    TrimAround(ws1, core, ws2);
    ParseTrimmed(line);
    ParseSignedDigits(sign, ds);
  }

  /** `s` is the numeral `ws1 + sign + ds + ws2`: white space, an optional sign, digits, white space. */
  predicate Numeral(s: string, ws1: string, sign: string, ds: string, ws2: string) {
    && AllNumberWhite(ws1) && AllNumberWhite(ws2)
    && (sign == "" || sign == "+" || sign == "-")
    && |ds| > 0 && AllDigits(ds)
    && s == ws1 + sign + ds + ws2
  }

  /**
   The converse of `ParseNumeral`: every string `int.TryParse` accepts is a numeral, and its
   value is the numeral's signed value. So a string such as `1x`, `+-1` or `1 2` is rejected.
   */
  lemma ParseIsNumeral(s: string)
    requires TryParseInt32(s).Some?
    ensures exists ws1, sign, ds, ws2 :: Numeral(s, ws1, sign, ds, ws2)
              && TryParseInt32(s).value == SignedValue(sign, ds)
  {
    var t := TrimEnd(TrimStart(s));
    ParseTrimmed(s);
    var ws1, ws2 := SplitTrimmed(s);
    var sign, ds := SplitSigned(t);
    NumeralParts(s, ws1, t, ws2, sign, ds);
  }

  /** White space around an optional sign and digits makes a numeral. */
  lemma NumeralParts(s: string, ws1: string, t: string, ws2: string, sign: string, ds: string)
    requires AllNumberWhite(ws1) && AllNumberWhite(ws2)
    requires sign == "" || sign == "+" || sign == "-"
    requires |ds| > 0 && AllDigits(ds)
    requires s == ws1 + t + ws2 && t == sign + ds
    ensures Numeral(s, ws1, sign, ds, ws2)
  {
    assert ws1 + (sign + ds) + ws2 == ws1 + sign + ds + ws2;
  }

  /** A string is the white space `TrimStart` drops, the trimmed core, and the white space `TrimEnd` drops. */
  lemma SplitTrimmed(s: string) returns (ws1: string, ws2: string)
    ensures AllNumberWhite(ws1) && AllNumberWhite(ws2)
    ensures s == ws1 + TrimEnd(TrimStart(s)) + ws2
  {
    var u := TrimStart(s);
    var t := TrimEnd(u);
    ws1 := LeadingWhite(s);
    ws2 := TrailingWhite(u);
    Regroup(s, ws1, u, t, ws2);
  }

  lemma Regroup(s: string, a: string, u: string, t: string, b: string)
    requires s == a + u && u == t + b
    ensures s == a + t + b
  {
  }

  /** The white space `TrimStart` drops, as a prefix of the string. */
  lemma LeadingWhite(s: string) returns (ws: string)
    ensures AllNumberWhite(ws)
    ensures s == ws + TrimStart(s)
  {
    var k := |s| - |TrimStart(s)|;
    ws := s[..k];
    WhiteSlice(s, 0, k);
    SplitAt(s, k);
  }

  /** The white space `TrimEnd` drops, as a suffix of the string. */
  lemma TrailingWhite(u: string) returns (ws: string)
    ensures AllNumberWhite(ws)
    ensures u == TrimEnd(u) + ws
  {
    var k := |TrimEnd(u)|;
    ws := u[k..];
    WhiteSlice(u, k, |u|);
    SplitAt(u, k);
  }

  lemma WhiteSlice(s: string, i: nat, j: nat)
    requires i <= j <= |s|
    requires forall k :: i <= k < j ==> IsNumberWhite(s[k])
    ensures AllNumberWhite(s[i..j])
  {
    forall k | 0 <= k < j - i ensures IsNumberWhite(s[i..j][k]) {
      assert s[i..j][k] == s[i + k];
    }
  }

  lemma SplitAt(s: string, k: nat)
    requires k <= |s|
    ensures s == s[..k] + s[k..]
  {
  }

  /** A trimmed string `ParseSigned` accepts is an optional sign followed by digits of the accepted value. */
  lemma SplitSigned(t: string) returns (sign: string, ds: string)
    requires ParseSigned(t).Some?
    ensures sign == "" || sign == "+" || sign == "-"
    ensures |ds| > 0 && AllDigits(ds)
    ensures t == sign + ds
    ensures ParseSigned(t).value == SignedValue(sign, ds)
  {
    if t[0] == '-' || t[0] == '+' {
      sign, ds := t[..1], t[1..];
      assert sign == [t[0]];
    } else {
      sign, ds := [], t;
    }
    assert t == sign + ds;
  }

  /** `1x` holds a digit but is not a numeral, so `int.TryParse` rejects it. */
  lemma RejectsTrailingLetter()
    ensures TryParseInt32("1x").None?
  {
    var s := "1x";
    assert TrimStart(s) == s by {
      assert !IsNumberWhite(s[0]);
    }
    assert TrimEnd(s) == s by {
      assert !IsNumberWhite(s[1]);
    }
    assert !AllDigits(s) by {
      assert !IsDigit(s[1]);
    }
  }

  /** Trimming removes exactly the white space around a core that starts and ends with other characters. */
  lemma TrimAround(ws1: string, core: string, ws2: string)
    requires AllNumberWhite(ws1) && AllNumberWhite(ws2)
    requires |core| > 0 && !IsNumberWhite(core[0]) && !IsNumberWhite(core[|core| - 1])
    ensures TrimEnd(TrimStart(ws1 + core + ws2)) == core
  {
    assert ws1 + core + ws2 == ws1 + (core + ws2);
    assert (core + ws2)[0] == core[0];
    TrimStartWhite(ws1, core + ws2);
    TrimEndWhite(core, ws2);
  }

  /** `int.TryParse` is the sign-and-digits parse of the trimmed string. */
  lemma ParseTrimmed(s: string)
    ensures TryParseInt32(s) == ParseSigned(TrimEnd(TrimStart(s)))
  {
  }

  /** A bare digit string parses to its value when that fits in an `int`, and is rejected otherwise. */
  lemma ParseUnsigned(ds: string)
    requires |ds| > 0 && AllDigits(ds)
    ensures TryParseInt32(ds) == (if DigitsValue(ds) <= MaxInt32 then Some(DigitsValue(ds) as int) else None)
  {
    Unpadded(ds);
    ParseNumeral(ds, [], [], ds, []);
  }

  lemma Unpadded(s: string)
    ensures AllNumberWhite([])
    ensures s == [] + [] + s + []
  {
  }

  /** In particular, a digit string beyond `int.MaxValue` is rejected rather than wrapped. */
  lemma RejectsTooLarge(ds: string)
    requires |ds| > 0 && AllDigits(ds) && DigitsValue(ds) > MaxInt32
    ensures TryParseInt32(ds).None?
  {
    ParseUnsigned(ds);
  }
}

=== FILE: overflow.dfy ===
/**
 `GetNextTaskId` as written: `maxId + 1` is an unchecked 32-bit `int` addition. When the
 loaded store holds the id `int.MaxValue` the sum wraps to `int.MinValue`, an id that is not
 above the other ids and may already be taken; the model's `Tasks.GetNextTaskId` computes
 the intended, unwrapped value.
 */
module Overflow {
  import opened Numbers
  import opened Tasks

  /** The allocator with C#'s 32-bit wrap-around: correct below `int.MaxValue`, wrapped at it. */
  method GetNextTaskIdAsWritten(tasks: Store) returns (next: int)
    requires forall k :: k in tasks ==> IsInt32(k)
    ensures IsInt32(next)
    ensures MaxInt32 !in tasks ==> next >= 1 && forall k :: k in tasks ==> k < next
    ensures MaxInt32 !in tasks ==> next == 1 || next - 1 in tasks
    ensures MaxInt32 in tasks ==> next == MinInt32 && forall k :: k in tasks ==> next <= k
  {
    var intended := GetNextTaskId(tasks);
    if MaxInt32 in tasks {
      assert intended == MaxInt32 + 1;
    }
    next := Wrap32(intended);
  }

  /**
   A store holding both `int.MaxValue` and `int.MinValue` gets `int.MinValue` as its next id:
   the invariant fails, and the first add throws on the duplicate key.
   */
  lemma WrappedIdCollides(tasks: Store, t: Task)
    requires tasks == map[MaxInt32 := t, MinInt32 := t]
    ensures !Inv(Session(tasks, MinInt32))
    ensures HandleAdd(Session(tasks, MinInt32), ["add", "x"]).outcome == DuplicateKey
  {
  }
}

=== FILE: tasks.dfy ===
/**
 The in-memory task store of the task manager (Program.cs): the `Task` record, the
 `Dictionary<int, Task>` of tasks keyed by id together with the `nextTaskId` counter,
 the id allocator `GetNextTaskId`, the command handlers for add, complete, delete and
 edit as pure transitions, and the line format of the list command.
 */
module Tasks {
  import opened Wrappers
  import opened Numbers

  /** One to-do item. Its id is not part of it: the store supplies it. */
  datatype Task = Task(name: string, description: string, isCompleted: bool)

  /** `new Task(name)`: no description, not completed. */
  function NewTask(name: string): Task {
    Task(name, "", false)
  }

  /** `new Task(name, description)`: not completed. */
  function NewTaskWithDescription(name: string, description: string): Task {
    Task(name, description, false)
  }

  type Store = map<int, Task>

  /** The program's state between commands: `taskList` and `nextTaskId`. */
  datatype Session = Session(tasks: Store, nextId: int)

  /** The id counter is positive and lies above every id in the store. */
  predicate Inv(s: Session) {
    s.nextId >= 1 && forall k :: k in s.tasks ==> k < s.nextId
  }

  lemma Nonempty(xs: set<int>)
    requires |xs| > 0
    ensures exists x :: x in xs
  {
    if forall x :: x !in xs {
      assert false;
    }
  }

  /**
   `GetNextTaskId`: one more than the largest id in the store, or 1 for an empty store.
   It is the smallest counter value that makes the store's invariant hold and is at least 1.
   */
  method GetNextTaskId(tasks: Store) returns (next: int)
    ensures next >= 1
    ensures forall k :: k in tasks ==> k < next
    ensures next == 1 || next - 1 in tasks
    ensures Inv(Session(tasks, next))
  {
    var maxId := 0;
    var unseen := tasks.Keys;
    while |unseen| > 0
      invariant unseen <= tasks.Keys
      invariant maxId >= 0
      invariant maxId == 0 || maxId in tasks
      invariant forall k :: k in tasks && k !in unseen ==> k <= maxId
      decreases unseen
    {
      Nonempty(unseen);
      var id :| id in unseen;
      if id > maxId {
        maxId := id;
      }
      unseen := unseen - {id};
    }
    next := maxId + 1;
  }

  /** What a handler reports. `DuplicateKey` is the exception `Dictionary.Add` throws for an id already present. */
  datatype Outcome =
    | Added(id: int)
    | Toggled(id: int)
    | Deleted(id: int)
    | Updated(id: int)
    | NotFound(id: int)
    | UsageError
    | DuplicateKey

  /** A handler's result: the new state, what it reported, and whether it called `SaveTasks`. */
  datatype Reply = Reply(session: Session, outcome: Outcome, save: bool)

  /** The id argument `parts[1]` of complete, delete and edit, when `int.TryParse` accepts it. */
  function IdArgument(parts: seq<string>): Option<int>
    requires |parts| >= 2
  {
    TryParseInt32(parts[1])
  }

  /**
   `HandleAddCommand`: with a name (and optionally a description) the task is stored under
   the counter's id and the counter moves on; any other argument count is a usage error.
   */
  function HandleAdd(s: Session, parts: seq<string>): (r: Reply)
    ensures |parts| != 2 && |parts| != 3 ==> r == Reply(s, UsageError, true)
    ensures r.outcome.DuplicateKey? <==> (|parts| == 2 || |parts| == 3) && s.nextId in s.tasks
    ensures r.outcome.DuplicateKey? ==> r.session == s && !r.save
    ensures r.outcome.Added? ==>
              && r.outcome.id == s.nextId
              && r.save
              && r.session.nextId == s.nextId + 1
              && r.session.tasks.Keys == s.tasks.Keys + {s.nextId}
              && s.nextId !in s.tasks
              && r.session.tasks[s.nextId].name == parts[1]
              && r.session.tasks[s.nextId].description == (if |parts| == 3 then parts[2] else "")
              && !r.session.tasks[s.nextId].isCompleted
              && forall k :: k in s.tasks ==> r.session.tasks[k] == s.tasks[k]
    ensures (|parts| == 2 || |parts| == 3) && s.nextId !in s.tasks ==> r.outcome == Added(s.nextId)
    ensures Inv(s) && (|parts| == 2 || |parts| == 3) ==> r.outcome.Added?
    ensures Inv(s) ==> Inv(r.session)
  {
    if |parts| == 2 || |parts| == 3 then
      if s.nextId in s.tasks then
        Reply(s, DuplicateKey, false)
      else
        var task := if |parts| == 2 then NewTask(parts[1]) else NewTaskWithDescription(parts[1], parts[2]);
        Reply(Session(s.tasks[s.nextId := task], s.nextId + 1), Added(s.nextId), true)
    else
      Reply(s, UsageError, true)
  }

  /**
   `HandleCompleteCommand`: flips the completion flag of the task with the given id and
   nothing else. A wrong argument count or an unparsable id is a usage error, an absent id
   is reported as not found; in both cases the state is unchanged. The store is saved
   in every case.
   */
  function HandleComplete(s: Session, parts: seq<string>): (r: Reply)
    ensures r.save
    ensures r.session.nextId == s.nextId
    ensures r.session.tasks.Keys == s.tasks.Keys
    ensures r.outcome == UsageError <==> !(|parts| == 2 && IdArgument(parts).Some?)
    ensures r.outcome.NotFound? <==>
              |parts| == 2 && IdArgument(parts).Some? && IdArgument(parts).value !in s.tasks
    ensures r.outcome.NotFound? ==> r.outcome.id == IdArgument(parts).value
    ensures !r.outcome.Toggled? ==> r.session == s
    ensures r.outcome.Toggled? ==>
              && |parts| == 2 && IdArgument(parts) == Some(r.outcome.id)
              && r.outcome.id in s.tasks
              && r.session.tasks[r.outcome.id].isCompleted == !s.tasks[r.outcome.id].isCompleted
              && r.session.tasks[r.outcome.id].name == s.tasks[r.outcome.id].name
              && r.session.tasks[r.outcome.id].description == s.tasks[r.outcome.id].description
              && forall k :: k in s.tasks && k != r.outcome.id ==> r.session.tasks[k] == s.tasks[k]
    ensures r.outcome.Toggled? || r.outcome.NotFound? || r.outcome == UsageError
  {
    if |parts| == 2 && IdArgument(parts).Some? then
      var id := IdArgument(parts).value;
      if id in s.tasks then
        var t := s.tasks[id];
        Reply(Session(s.tasks[id := t.(isCompleted := !t.isCompleted)], s.nextId), Toggled(id), true)
      else
        Reply(s, NotFound(id), true)
    else
      Reply(s, UsageError, true)
  }

  /**
   `HandleDeleteCommand`: removes exactly the task with the given id; the other tasks and
   the id counter stay as they are, so a removed id is never handed out again. Usage errors
   and absent ids leave the state unchanged. The store is saved in every case.
   */
  function HandleDelete(s: Session, parts: seq<string>): (r: Reply)
    ensures r.save
    ensures r.session.nextId == s.nextId
    ensures r.outcome == UsageError <==> !(|parts| == 2 && IdArgument(parts).Some?)
    ensures r.outcome.NotFound? <==>
              |parts| == 2 && IdArgument(parts).Some? && IdArgument(parts).value !in s.tasks
    ensures r.outcome.NotFound? ==> r.outcome.id == IdArgument(parts).value
    ensures !r.outcome.Deleted? ==> r.session == s
    ensures r.outcome.Deleted? ==>
              && |parts| == 2 && IdArgument(parts) == Some(r.outcome.id)
              && r.outcome.id in s.tasks
              && r.session.tasks.Keys == s.tasks.Keys - {r.outcome.id}
              && forall k :: k in r.session.tasks ==> r.session.tasks[k] == s.tasks[k]
    ensures r.outcome.Deleted? || r.outcome.NotFound? || r.outcome == UsageError
    ensures Inv(s) ==> Inv(r.session)
  {
    if |parts| == 2 && IdArgument(parts).Some? then
      var id := IdArgument(parts).value;
      if id in s.tasks then
        Reply(Session(s.tasks - {id}, s.nextId), Deleted(id), true)
      else
        Reply(s, NotFound(id), true)
    else
      Reply(s, UsageError, true)
  }

  /**
   `HandleEditCommand`: renames the task with the given id to `parts[2]` and, when a fourth
   token is present, replaces its description with it; otherwise the description is kept.
   The completion flag, the other tasks and tokens past the fourth are ignored. Fewer than
   three tokens or an unparsable id is a usage error, which (unlike the other handlers) is
   not followed by a save; an absent id is reported and saved.
   */
  function HandleEdit(s: Session, parts: seq<string>): (r: Reply)
    ensures r.session.nextId == s.nextId
    ensures r.session.tasks.Keys == s.tasks.Keys
    ensures r.outcome == UsageError <==> !(|parts| >= 3 && IdArgument(parts).Some?)
    ensures r.save <==> r.outcome != UsageError
    ensures r.outcome.NotFound? <==>
              |parts| >= 3 && IdArgument(parts).Some? && IdArgument(parts).value !in s.tasks
    ensures r.outcome.NotFound? ==> r.outcome.id == IdArgument(parts).value
    ensures !r.outcome.Updated? ==> r.session == s
    ensures r.outcome.Updated? ==>
              && |parts| >= 3 && IdArgument(parts) == Some(r.outcome.id)
              && r.outcome.id in s.tasks
              && r.session.tasks[r.outcome.id].name == parts[2]
              && r.session.tasks[r.outcome.id].description
                 == (if |parts| >= 4 then parts[3] else s.tasks[r.outcome.id].description)
              && r.session.tasks[r.outcome.id].isCompleted == s.tasks[r.outcome.id].isCompleted
              && forall k :: k in s.tasks && k != r.outcome.id ==> r.session.tasks[k] == s.tasks[k]
    ensures r.outcome.Updated? || r.outcome.NotFound? || r.outcome == UsageError
  {
    if |parts| >= 3 && IdArgument(parts).Some? then
      var id := IdArgument(parts).value;
      if id in s.tasks then
        var t := s.tasks[id];
        var newName := if |parts| > 2 then parts[2] else t.name;
        var newDescription := if |parts| > 3 then parts[3] else t.description;
        Reply(Session(s.tasks[id := t.(name := newName, description := newDescription)], s.nextId), Updated(id), true)
      else
        Reply(s, NotFound(id), true)
    else
      Reply(s, UsageError, false)
  }

  /** Completing the same id twice restores the store, whatever the arguments. */
  lemma CompleteTwice(s: Session, parts: seq<string>)
    ensures HandleComplete(HandleComplete(s, parts).session, parts).session == s
  {
    var r1 := HandleComplete(s, parts);
    var r2 := HandleComplete(r1.session, parts);
    if r1.outcome.Toggled? {
      var id := r1.outcome.id;
      assert r2.outcome == Toggled(id);
      assert r2.session.tasks == s.tasks by {
        assert r2.session.tasks[id] == s.tasks[id];
      }
    }
  }

  /** The invariant holds after every handler: complete and edit keep the set of ids. */
  lemma HandlersKeepInv(s: Session, parts: seq<string>)
    requires Inv(s)
    ensures Inv(HandleAdd(s, parts).session)
    ensures Inv(HandleComplete(s, parts).session)
    ensures Inv(HandleDelete(s, parts).session)
    ensures Inv(HandleEdit(s, parts).session)
    ensures !HandleAdd(s, parts).outcome.DuplicateKey?
  {
  }

  /** After a delete, the next add hands out an id other than the deleted one. */
  lemma DeletedIdNotReused(s: Session, del: seq<string>, add: seq<string>)
    requires Inv(s)
    requires HandleDelete(s, del).outcome.Deleted?
    requires |add| == 2 || |add| == 3
    ensures HandleAdd(HandleDelete(s, del).session, add).outcome.Added?
    ensures HandleAdd(HandleDelete(s, del).session, add).outcome.id != HandleDelete(s, del).outcome.id
  {
  }

  // The list command's output.

  /** `Dictionary` enumeration order: every id of the store exactly once. */
  predicate Enumerates(order: seq<int>, tasks: Store) {
    && (forall i, j :: 0 <= i < j < |order| ==> order[i] != order[j])
    && (forall k :: k in order ==> k in tasks)
    && (forall k :: k in tasks ==> k in order)
  }

  const NoTasksMessage: string := "No tasks in the list."

  /** `{id}. [x] {name}: {description}` for a completed task, with a space instead of `x` otherwise. */
  function FormatLine(id: int, t: Task): (line: string)
    ensures |line| == |Show(id)| + |t.name| + |t.description| + 8
    ensures line[..|Show(id)|] == Show(id)
    ensures line[|line| - |t.description|..] == t.description
  {
    Show(id) + ". [" + (if t.isCompleted then "x" else " ") + "] " + t.name + ": " + t.description
  }

  lemma {:induction false} DistinctLength(order: seq<int>)
    requires forall i, j :: 0 <= i < j < |order| ==> order[i] != order[j]
    ensures |set k | k in order| == |order|
    decreases |order|
  {
    if |order| > 0 {
      var rest := order[..|order| - 1];
      var last := order[|order| - 1];
      DistinctLength(rest);
      assert (set k | k in order) == (set k | k in rest) + {last};
      assert last !in rest;
    }
  }

  /**
   `HandleListCommand`: the fixed message for an empty store, otherwise one line per task in
   the order the dictionary enumerates them; the number of lines equals the number of tasks.
   */
  function ListLines(tasks: Store, order: seq<int>): (lines: seq<string>)
    requires Enumerates(order, tasks)
    ensures |tasks| == 0 ==> lines == [NoTasksMessage]
    ensures |tasks| > 0 ==> |lines| == |order| == |tasks|
    ensures |tasks| > 0 ==> forall i :: 0 <= i < |lines| ==>
              order[i] in tasks && lines[i] == FormatLine(order[i], tasks[order[i]])
  {
    if |tasks| == 0 then [NoTasksMessage]
    else
      DistinctLength(order);
      assert (set k | k in order) == tasks.Keys;
      seq(|order|, i requires 0 <= i < |order| => FormatLine(order[i], tasks[order[i]]))
  }

  lemma LineLayout(digits: string, mark: string, rest: string)
    requires |mark| == 1
    ensures var line := digits + ". [" + mark + rest; var n := |digits|;
      && |line| == n + 4 + |rest|
      && line[..n] == digits
      && line[n..n + 3] == ". ["
      && line[n + 3] == mark[0]
      && line[n + 4..] == rest
  {
    var line := digits + ". [" + mark + rest;
    assert line == digits + (". [" + mark + rest);
  }

  /**
   A list line starts with the task's id, which `int.TryParse` reads back, and its
   completion marker sits right after `". ["`: `x` exactly when the task is completed.
   The line ends with the name, `": "` and the description.
   */
  lemma FormatLineShape(id: int, t: Task)
    requires IsInt32(id)
    ensures var line := FormatLine(id, t); var n := |Show(id)|;
      && n + 5 <= |line|
      && TryParseInt32(line[..n]) == Some(id)
      && line[n..n + 3] == ". ["
      && (line[n + 3] == 'x' <==> t.isCompleted)
      && line[n + 4..] == "] " + t.name + ": " + t.description
  {
    var mark := if t.isCompleted then "x" else " ";
    var rest := "] " + t.name + ": " + t.description;
    assert FormatLine(id, t) == Show(id) + ". [" + mark + rest;
    LineLayout(Show(id), mark, rest);
    ParseShowRoundTrip(id);
  }

  /** Completing a missing id on an empty store reports it and leaves the store empty. */
  lemma CompleteOnEmptyStore(parts: seq<string>, s: Session)
    requires parts == ["complete", "99"] && s.tasks == map[]
    ensures HandleComplete(s, parts) == Reply(s, NotFound(99), true)
  {
    var arg := parts[1];
    assert AllDigits(arg);
    assert DigitsValue(arg) == 99 by {
      assert arg[..1] == "9";
    }
    ParseDigits(arg);
    assert IdArgument(parts) == Some(99);
  }
}

=== FILE: tokenizer.dfy ===
/**
 The command-line tokenizer `SplitInput` (Program.cs). The source runs the regular
 expression `"(.*?)"|(\S+)` over the line and keeps, for every match, the text between
 the quotes or the whole unquoted match. Here the same leftmost-match behaviour is an
 explicit scanner: at each position white space is skipped; a `"` that has a later `"`
 before the next line feed (the regex `.` never matches `\n`) opens a quoted token that
 ends at that later `"`; anything else is the maximal run of non-white-space characters,
 which may itself contain `"` characters.
 */
module Tokenizer {

  /** The characters of .NET's regex class `\s`: `[\f\n\r\t\v\x85\p{Z}]`. */
  predicate IsWhitespace(c: char) {
    || c == ' ' || '\t' <= c <= '\r' || c == '\U{85}' || c == '\U{A0}' || c == '\U{1680}'
    || '\U{2000}' <= c <= '\U{200A}' || c == '\U{2028}' || c == '\U{2029}'
    || c == '\U{202F}' || c == '\U{205F}' || c == '\U{3000}'
  }

  predicate NoWhitespace(t: string) {
    forall i :: 0 <= i < |t| ==> !IsWhitespace(t[i])
  }

  predicate AllWhitespace(t: string) {
    forall i :: 0 <= i < |t| ==> IsWhitespace(t[i])
  }

  /** A character at which the lazy `.*?` inside the quotes stops: the closing quote, or a line feed it cannot cross. */
  predicate StopsQuote(c: char) {
    c == '"' || c == '\n'
  }

  /** The index of the first `"` or line feed of `s`, or `|s|` when there is none. */
  function FindStop(s: string): (j: nat)
    ensures j <= |s|
    ensures forall i :: 0 <= i < j ==> !StopsQuote(s[i])
    ensures j < |s| ==> StopsQuote(s[j])
  {
    if |s| == 0 || StopsQuote(s[0]) then 0 else 1 + FindStop(s[1..])
  }

  /** The length of the longest prefix of `s` without white space: what `\S+` matches greedily. */
  function RunLength(s: string): (n: nat)
    ensures n <= |s|
    ensures NoWhitespace(s[..n])
    ensures n < |s| ==> IsWhitespace(s[n])
  {
    if |s| == 0 || IsWhitespace(s[0]) then 0 else 1 + RunLength(s[1..])
  }

  /** One regex match: the first alternative (`Quoted`, quotes stripped) or the second (`Bare`). */
  datatype Piece = Quoted(text: string) | Bare(text: string)

  /** What a single match can look like. */
  predicate WellShaped(p: Piece) {
    match p
    case Quoted(t) => '"' !in t && '\n' !in t
    case Bare(t) => |t| > 0 && NoWhitespace(t) && (t[0] == '"' ==> '"' !in t[1..])
  }

  /** Pieces that are all unquoted and contain no `"` at all. */
  predicate QuoteFree(ps: seq<Piece>) {
    forall i :: 0 <= i < |ps| ==> ps[i].Bare? && '"' !in ps[i].text
  }

  /**
   The match sequences the scanner can produce on a line without line feeds: every piece
   well shaped, and an unquoted piece that starts with `"` (an unclosed quote) is followed
   by no `"` at all.
   */
  predicate WellFormed(ps: seq<Piece>)
    decreases |ps|
  {
    |ps| == 0 ||
    (&& WellShaped(ps[0])
     && (ps[0].Bare? && ps[0].text[0] == '"' ==> QuoteFree(ps[1..]))
     && WellFormed(ps[1..]))
  }

  /** `WellFormed` grows one piece at a time at the front. */
  lemma WellFormedCons(p: Piece, ps: seq<Piece>)
    requires WellShaped(p) && WellFormed(ps)
    requires p.Bare? && p.text[0] == '"' ==> QuoteFree(ps)
    ensures WellFormed([p] + ps)
  {
    assert ([p] + ps)[0] == p;
    assert ([p] + ps)[1..] == ps;
  }

  /** At a `"`, the first alternative matches: a later `"` comes before any line feed. */
  predicate OpensQuote(s: string) {
    |s| > 0 && s[0] == '"' && 1 + FindStop(s[1..]) < |s| && s[1 + FindStop(s[1..])] == '"'
  }

  /** A closed quote matches the first alternative, with neither `"` nor a line feed inside. */
  lemma QuotedShape(s: string)
    requires OpensQuote(s)
    ensures WellShaped(Quoted(s[1..1 + FindStop(s[1..])]))
  {
    var j := FindStop(s[1..]);
    assert s[1..1 + j] == s[1..][..j];
  }

  /** An unclosed quote's run ends no later than the line feed that stopped the quote search. */
  lemma RunBeforeStop(s: string)
    requires |s| > 0 && s[0] == '"' && !OpensQuote(s)
    ensures RunLength(s) <= 1 + FindStop(s[1..])
  {
    var j := FindStop(s[1..]);
    var n := RunLength(s);
    if 1 + j < |s| && 1 + j < n {
      assert false;
    }
  }

  /**
   A run that does not open a quote matches the second alternative. If it starts with `"`,
   the quote is unclosed: the run ends at white space before any later `"` could occur.
   */
  lemma BareShape(s: string)
    requires |s| > 0 && !IsWhitespace(s[0]) && !OpensQuote(s)
    ensures WellShaped(Bare(s[..RunLength(s)]))
  {
    var n := RunLength(s);
    var t := s[..n];
    assert |t| > 0 && NoWhitespace(t);
    if t[0] == '"' {
      var j := FindStop(s[1..]);
      RunBeforeStop(s);
      forall i | 0 <= i < |t[1..]|
        ensures t[1..][i] != '"'
      {
        assert t[1..][i] == s[1..][i];
        assert i < j;
      }
      assert '"' !in t[1..];
    }
  }

  /** The successive matches of `"(.*?)"|(\S+)` on `s`. */
  function Lex(s: string): (ps: seq<Piece>)
    ensures forall i :: 0 <= i < |ps| ==> WellShaped(ps[i])
    ensures |ps| == 0 <==> AllWhitespace(s)
    decreases |s|
  {
    if |s| == 0 then []
    else if IsWhitespace(s[0]) then
      assert AllWhitespace(s) <==> AllWhitespace(s[1..]) by {
        assert forall i :: 0 < i < |s| ==> s[i] == s[1..][i - 1];
      }
      Lex(s[1..])
    else if OpensQuote(s) then
      var j := 1 + FindStop(s[1..]);
      QuotedShape(s);
      [Quoted(s[1..j])] + Lex(s[j + 1..])
    else
      var n := RunLength(s);
      BareShape(s);
      [Bare(s[..n])] + Lex(s[n..])
  }

  /** On a line without `"`, every match is unquoted and free of `"`. */
  lemma {:induction false} LexQuoteFree(s: string)
    requires '"' !in s
    ensures QuoteFree(Lex(s))
    decreases |s|
  {
    if |s| == 0 {
    } else if IsWhitespace(s[0]) {
      LexQuoteFree(s[1..]);
    } else {
      var n := RunLength(s);
      assert forall c :: c in s[n..] ==> c in s;
      assert forall c :: c in s[..n] ==> c in s;
      LexQuoteFree(s[n..]);
    }
  }

  /** Without line feeds, a `"` that opens no quote is the last `"` of the line. */
  lemma UnclosedQuoteIsLast(s: string)
    requires '\n' !in s && |s| > 0 && s[0] == '"' && !OpensQuote(s)
    ensures '"' !in s[1..]
  {
    var u := s[1..];
    var j := FindStop(u);
    if j < |u| {
      assert false;
    }
  }

  /** On a line without line feeds the scanner produces a well-formed match sequence. */
  lemma {:induction false} LexWellFormed(s: string)
    requires '\n' !in s
    ensures WellFormed(Lex(s))
    decreases |s|
  {
    if |s| == 0 {
    } else if IsWhitespace(s[0]) {
      LexWellFormed(s[1..]);
    } else if OpensQuote(s) {
      var j := 1 + FindStop(s[1..]);
      assert '\n' !in s[j + 1..] by {
        assert forall c :: c in s[j + 1..] ==> c in s;
      }
      LexWellFormed(s[j + 1..]);
      QuotedShape(s);
      WellFormedCons(Quoted(s[1..j]), Lex(s[j + 1..]));
    } else {
      var n := RunLength(s);
      assert '\n' !in s[n..] by {
        assert forall c :: c in s[n..] ==> c in s;
      }
      LexWellFormed(s[n..]);
      BareShape(s);
      if s[0] == '"' {
        assert '"' !in s[n..] by {
          UnclosedQuoteIsLast(s);
          assert forall c :: c in s[n..] ==> c in s[1..];
        }
        LexQuoteFree(s[n..]);
      }
      WellFormedCons(Bare(s[..n]), Lex(s[n..]));
    }
  }

  function Texts(ps: seq<Piece>): (ts: seq<string>)
    ensures |ts| == |ps|
    ensures forall i :: 0 <= i < |ps| ==> ts[i] == ps[i].text
  {
    seq(|ps|, i requires 0 <= i < |ps| => ps[i].text)
  }

  /**
   `SplitInput`: the token strings of a command line. A token is either the inside of a
   closed quote, which holds no `"` and no line feed, or a non-empty run without white space.
   A line yields no tokens exactly when it is empty or all white space.
   */
  function SplitInput(line: string): (tokens: seq<string>)
    ensures |tokens| == 0 <==> AllWhitespace(line)
    ensures forall i :: 0 <= i < |tokens| ==>
              ('"' !in tokens[i] && '\n' !in tokens[i]) || (|tokens[i]| > 0 && NoWhitespace(tokens[i]))
  {
    var ps := Lex(line);
    assert forall i :: 0 <= i < |ps| ==> WellShaped(ps[i]);
    Texts(ps)
  }

  // The inverse of the scanner: writing pieces back as a line.

  /** The source text of one match: quoted pieces get their quotes back. */
  function Raw(p: Piece): string {
    match p
    case Quoted(t) => "\"" + t + "\""
    case Bare(t) => t
  }

  /** The pieces written out left to right, separated by single spaces. */
  function Render(ps: seq<Piece>): string
    decreases |ps|
  {
    if |ps| == 0 then ""
    else if |ps| == 1 then Raw(ps[0])
    else Raw(ps[0]) + " " + Render(ps[1..])
  }

  lemma {:induction false} RenderQuoteFree(ps: seq<Piece>)
    requires QuoteFree(ps)
    ensures '"' !in Render(ps)
    decreases |ps|
  {
    if |ps| > 1 {
      RenderQuoteFree(ps[1..]);
    }
  }

  lemma LexSpace(tail: string)
    ensures Lex(" " + tail) == Lex(tail)
  {
    assert (" " + tail)[1..] == tail;
  }

  /** The quote search stops at the first `"` or line feed. */
  lemma FindStopOf(t: string, rest: string)
    requires '"' !in t && '\n' !in t
    requires |rest| > 0 && StopsQuote(rest[0])
    ensures FindStop(t + rest) == |t|
  {
    var u := t + rest;
    var j := FindStop(u);
    assert u[|t|] == rest[0];
    if j < |t| {
      assert false;
    }
  }

  /** A closed quote yields one quoted match; scanning resumes right after the closing quote. */
  lemma LexQuoted(t: string, tail: string)
    requires '"' !in t && '\n' !in t
    ensures Lex("\"" + t + "\"" + tail) == [Quoted(t)] + Lex(tail)
  {
    var s := "\"" + t + "\"" + tail;
    assert s[1..] == t + ("\"" + tail);
    FindStopOf(t, "\"" + tail);
    assert s[1 + |t|] == '"';
    assert OpensQuote(s);
    assert s[1..1 + |t|] == t;
    assert s[1 + |t| + 1..] == tail;
  }

  /** A white-space-free prefix followed by white space or the end is exactly what `\S+` takes. */
  lemma {:induction false} RunLengthOf(t: string, tail: string)
    requires NoWhitespace(t)
    requires |tail| == 0 || IsWhitespace(tail[0])
    ensures RunLength(t + tail) == |t|
    decreases |t|
  {
    if |t| == 0 {
      assert t + tail == tail;
    } else {
      assert (t + tail)[0] == t[0];
      assert (t + tail)[1..] == t[1..] + tail;
      RunLengthOf(t[1..], tail);
    }
  }

  /** The scanner's first match on a line that starts with an unquoted run ended by white space or the end of the line. */
  lemma LexBare(t: string, tail: string)
    requires |t| > 0 && NoWhitespace(t)
    requires t[0] == '"' ==> '"' !in t[1..] && '"' !in tail
    requires |tail| == 0 || IsWhitespace(tail[0])
    ensures Lex(t + tail) == [Bare(t)] + Lex(tail)
  {
    var s := t + tail;
    assert !IsWhitespace(s[0]) by {
      assert s[0] == t[0];
    }
    assert !OpensQuote(s) by {
      if t[0] == '"' {
        var u := s[1..];
        assert u == t[1..] + tail;
        var j := FindStop(u);
        if j < |u| {
          assert u[j] in u;
        }
      }
    }
    assert RunLength(s) == |t| by {
      RunLengthOf(t, tail);
    }
    assert s[..|t|] == t;
    assert s[|t|..] == tail;
  }

  /** Scanning a match followed by a tail that cannot extend it yields that match, then the tail's matches. */
  lemma LexPiece(p: Piece, tail: string)
    requires WellShaped(p)
    requires p.Bare? ==> |tail| == 0 || IsWhitespace(tail[0])
    requires p.Bare? && p.text[0] == '"' ==> '"' !in tail
    ensures Lex(Raw(p) + tail) == [p] + Lex(tail)
  {
    match p
    case Quoted(t) =>
      LexQuoted(t, tail);
      assert Raw(p) + tail == "\"" + t + "\"" + tail;
    case Bare(t) =>
      LexBare(t, tail);
  }

  /** The tail `" " + Render(ps[1..])` cannot extend or reopen the first piece. */
  lemma RenderCons(ps: seq<Piece>)
    requires |ps| > 1 && WellFormed(ps)
    ensures Lex(Render(ps)) == [ps[0]] + Lex(Render(ps[1..]))
  {
    var rest := Render(ps[1..]);
    var tail := " " + rest;
    assert ps[0].Bare? && ps[0].text[0] == '"' ==> '"' !in tail by {
      if ps[0].Bare? && ps[0].text[0] == '"' {
        RenderQuoteFree(ps[1..]);
      }
    }
    LexPiece(ps[0], tail);
    assert Render(ps) == Raw(ps[0]) + tail;
    LexSpace(rest);
  }

  /** Scanning a rendered line gives back exactly the pieces it was rendered from. */
  lemma {:induction false} LexRender(ps: seq<Piece>)
    requires WellFormed(ps)
    ensures Lex(Render(ps)) == ps
    decreases |ps|
  {
    if |ps| == 1 {
      LexPiece(ps[0], "");
      assert Raw(ps[0]) + "" == Raw(ps[0]);
    } else if |ps| > 1 {
      RenderCons(ps);
      LexRender(ps[1..]);
      assert [ps[0]] + ps[1..] == ps;
    }
  }

  /** The tokens of a rendered line are the texts of the pieces, quotes stripped. */
  lemma SplitRender(ps: seq<Piece>)
    requires WellFormed(ps)
    ensures SplitInput(Render(ps)) == Texts(ps)
  {
    LexRender(ps);
  }

  /** A word of printable ASCII characters, with no quote after a leading one, is one match. */
  lemma PrintableWord(t: string)
    requires |t| > 0 && forall i :: 0 <= i < |t| ==> '!' <= t[i] <= '~'
    requires t[0] == '"' ==> '"' !in t[1..]
    ensures WellShaped(Bare(t))
  {
  }

  /** A word followed by two quoted arguments splits into the word and the two arguments. */
  lemma SplitQuotedArgs(line: string, w: string, a: string, b: string)
    requires WellShaped(Bare(w)) && w[0] != '"'
    requires '"' !in a && '\n' !in a && '"' !in b && '\n' !in b
    requires line == w + " \"" + a + "\" \"" + b + "\""
    ensures SplitInput(line) == [w, a, b]
  {
    var p, q, r := Bare(w), Quoted(a), Quoted(b);
    var ps := [p, q, r];
    assert WellFormed(ps) by {
      WellFormedCons(r, []);
      WellFormedCons(q, [r]);
      WellFormedCons(p, [q, r]);
      assert [q] + [r] == [q, r] && [p] + [q, r] == ps;
    }
    assert Render(ps) == line by {
      RenderThree(p, q, r);
      assert Raw(p) + " " + Raw(q) + " " + Raw(r) == line;
    }
    SplitRender(ps);
    assert Texts(ps) == [w, a, b];
  }

  /** Quoted arguments keep their inner spaces and lose their quotes. */
  lemma SplitQuotedExample(line: string)
    requires line == "add \"buy milk\" \"2% organic\""
    ensures SplitInput(line) == ["add", "buy milk", "2% organic"]
  {
    var w, a, b := "add", "buy milk", "2% organic";
    PrintableWord(w);
    QuotedExampleLine(line, w, a, b);
    SplitQuotedArgs(line, w, a, b);
  }

  lemma QuotedExampleLine(line: string, w: string, a: string, b: string)
    requires line == "add \"buy milk\" \"2% organic\""
    requires w == "add" && a == "buy milk" && b == "2% organic"
    ensures line == w + " \"" + a + "\" \"" + b + "\""
  {
    assert w + " \"" + a == "add \"buy milk";
    assert "add \"buy milk" + "\" \"" + b == "add \"buy milk\" \"2% organic";
  }

  /** Two unquoted words separated by one space split into those two words. */
  lemma SplitWords(line: string, a: string, b: string)
    requires WellShaped(Bare(a)) && WellShaped(Bare(b))
    requires a[0] == '"' ==> '"' !in b
    requires line == a + " " + b
    ensures SplitInput(line) == [a, b]
  {
    var p, q := Bare(a), Bare(b);
    var ps := [p, q];
    assert WellFormed(ps) by {
      WellFormedCons(q, []);
      WellFormedCons(p, [q]);
      assert [p] + [q] == ps;
    }
    assert Render(ps) == line by {
      RenderTwo(p, q);
    }
    SplitRender(ps);
    assert Texts(ps) == [a, b];
  }

  /** An unclosed quote is not a quoted token: it stays at the head of an unquoted one. */
  lemma SplitUnclosedExample(line: string)
    requires line == "add \"unclosed"
    ensures SplitInput(line) == ["add", "\"unclosed"]
  {
    var a, b := "add", "\"unclosed";
    PrintableWord(a);
    assert b[1..] == "unclosed";
    PrintableWord(b);
    SplitWords(line, a, b);
  }

  /** A `"` inside an unquoted run does not open a quote, whether in the middle or at the end. */
  lemma SplitInnerQuoteExample(line: string)
    requires line == "ab\"c d\""
    ensures SplitInput(line) == ["ab\"c", "d\""]
  {
    var a, b := "ab\"c", "d\"";
    PrintableWord(a);
    PrintableWord(b);
    SplitWords(line, a, b);
  }

  lemma RenderTwo(p: Piece, q: Piece)
    ensures Render([p, q]) == Raw(p) + " " + Raw(q)
  {
    assert [p, q][1..] == [q];
  }

  lemma RenderThree(p: Piece, q: Piece, r: Piece)
    ensures Render([p, q, r]) == Raw(p) + " " + Raw(q) + " " + Raw(r)
  {
    assert [p, q, r][1..] == [q, r];
    assert [q, r][1..] == [r];
    assert Render([r]) == Raw(r);
    assert Render([q, r]) == Raw(q) + " " + Raw(r);
    assert Render([p, q, r]) == Raw(p) + " " + (Raw(q) + " " + Raw(r));
  }
}

=== FILE: wrappers.dfy ===
/** The optional-value type used for the partial parsers of the model. */
module Wrappers {

  /** `Some(v)` where the source produces a value, `None` where it reports failure. */
  datatype Option<+T> = None | Some(value: T)
}
